=== FILE: README.md ===
# Study planner core, in Dafny

This project models the local, deterministic part of the study planner in
`app.py` (class `SimplifiedStudyPlanner`). That part turns a free-text study
goal into a timed plan of work and break blocks:

- **Goal analysis.** The goal is lower-cased. Each of the three categories
  (study, revision, assignment) is scored by keyword hits, and the
  best-scoring one is chosen. The subject is the first subject in the table
  whose keywords occur in the goal. The difficulty comes from counting hard
  and easy indicator words.
- **Timing adjustment.** The recent focus scores of the user shorten or
  lengthen the category's focus and break minutes.
- **Plan synthesis.** The session length picks a phase pattern: short is
  warm-up and main; medium adds a deep phase; long has warm-up, main, main
  and deep. Each phase becomes a work task. A break follows every phase but
  the last. Each task gets a consecutive id, a duration and a name. Each
  break also gets a type and an activity suggestion.
- **Session history.** Each recorded session is appended, and only the last
  fifty are kept.

Modules:

- `Text` (`text.dfy`): Python's `str.lower`, `str.split()` and `in` on
  strings.
- `GoalAnalysis` (`analysis.dfy`): the category table, scoring and
  selection, subject detection, difficulty, and the whole analysis.
- `Timing` (`timing.dfy`): the history-based adjustment and phase durations.
- `PlanSynthesis` (`plan.dfy`): patterns, task names, break activities, and
  the generation loop.
- `SessionHistory` (`history.dfy`): the bounded history.

Focus scores are whole numbers. "The average of the recent scores is below
3.0" is therefore stated as "their sum is below 3 times their count", and
likewise for "above 4.0".

Facts about `app.py` that the model makes explicit:

- **Subject detection** returns the first subject in table order whose
  keywords occur, even when a later subject also matches (`DetectSubject`,
  `FirstMatchWins`).
- **Phase patterns** are short = warm-up, main; medium = warm-up, main,
  deep; long = warm-up, main, main, deep (`Pattern`).
- **Work durations** lie in [15, 75] minutes (`EntriesBounded`). The
  60-minute cap applies only to challenging goals. Once the focus time
  exceeds 45 minutes, a challenging deep phase is shorter than a moderate
  one (`DeepCapBites`, `CapOnlyForChallenging`).
- **Break lengths** are the category's adjusted break time. The break
  before the final phase gets 5 minutes more when the pattern has more than
  two phases (`PlanMinutesClosed`, `GenerateBasePlan`).
- **Category ties** go to the first category in declaration order: study,
  then revision, then assignment (`DetectCategory`, `DetectCategoryUnique`).
  For instance, "review calculus chapter 5" scores 3 for study, through
  "chapter" and its whole-word bonus. It also scores 3 for revision, through
  "review". So it is classified as study. Only the tie-break rule is proved;
  the scores of this particular goal are not.

Two consequences of the code are proved as lemmas:

- A plan never uses the category-specific break suggestions.
  `_get_smart_break_activity` indexes the combined list with the break
  number. That number is at most 2, and every general list has at least
  three entries (`PlanBreaksUseGeneralActivities`).
- A category scores exactly when one of its keywords occurs in the goal.
  The whole-word bonus never fires on its own (`ScorePositiveIff`).

## Model

| member | source | states |
|---|---|---|
| Text.Lower | app.py:84 | the result has the input's length, and each character is the input's, with ASCII capitals lowered |
| Text.LowerIdempotent | app.py:84 | lower-casing an already lower-cased goal changes nothing |
| Text.LowerKeepsSpaces | app.py:84 | lower-casing keeps every whitespace character where it was and creates none |
| Text.ContainsIff | app.py:90 | the left-to-right scan for a keyword succeeds exactly when the keyword occurs at some index of the goal |
| Text.CountHits | app.py:90 | the number of keywords that occur is at most the number of keywords, and positive exactly when some keyword occurs |
| Text.CountHitsCounts | app.py:90 | the count equals the number of keyword indices whose keyword occurs in the goal |
| Text.Words | app.py:93 | `split()` yields only non-empty words that contain no whitespace; with `WordStart` and `WordsComplete`, a string is a word of the split exactly when it is a maximal run of non-whitespace |
| Text.WordOffset | app.py:93 | the k-th word of the split occurs in the string at the returned position |
| Text.WordsOccur | app.py:93 | every word of the split occurs in the string it was split from |
| Text.WordsComplete | app.py:93 | every maximal run of non-whitespace, one that starts the string or follows whitespace, is one of the words of the split |
| Text.WordStart | app.py:93 | every word of the split is the maximal run read from a position that starts the string or follows whitespace, so no word is a fragment of a longer run |
| Text.WordsAreRuns | app.py:93 | a string is a word of the split exactly when it is the maximal run read from such a position |
| Text.SingleWord | app.py:93 | a string without whitespace splits into itself alone, or into nothing when empty |
| GoalAnalysis.ConfigOf | app.py:51-73 | the table row of a category is that category's, with focus 30-50 and break 5-15 minutes |
| GoalAnalysis.ScorePositiveIff | app.py:86-97 | a category's `Score` (one point per keyword occurring in the goal, plus 2 when a keyword is a whole word of it) is positive, so the category enters the scored set, exactly when one of its keywords occurs in the goal |
| GoalAnalysis.ExactWordMatchIff | app.py:93-94 | the +2 bonus of `Score` fires exactly when some keyword equals a maximal run of non-whitespace of the goal |
| GoalAnalysis.Best | app.py:96-100 | no entry exactly when nothing scored; otherwise an entry with positive, maximal score that beats every earlier entry, as `max` keeps the first maximum |
| GoalAnalysis.DetectCategory | app.py:86-101 | with no positive score the category is study and the confidence 0; otherwise the first category in declaration order with maximal score, with that score as confidence |
| GoalAnalysis.DetectCategoryUnique | app.py:99-101 | any category with maximal positive score that beats every earlier one is the detected category |
| GoalAnalysis.FirstSubject | app.py:129-132 | general exactly when no row matches; otherwise the subject of a matching row with no match before it |
| GoalAnalysis.DetectSubject | app.py:117-132 | the first subject in table order with a keyword in the goal, and general when none matches |
| GoalAnalysis.FirstMatchWins | app.py:129-132 | a goal matching both mathematics and language is classified as mathematics, the earlier row |
| GoalAnalysis.EstimateDifficulty | app.py:134-146 | challenging exactly when more hard than easy indicators occur, manageable exactly when more easy than hard, moderate exactly on a tie |
| GoalAnalysis.NoIndicatorIsModerate | app.py:139-146 | a goal with no indicator word is moderate |
| GoalAnalysis.AnalyzeGoal | app.py:82-115 | category, confidence, subject and difficulty are taken from the lower-cased goal; the length is the word count of the goal as given; zero confidence means study |
| Timing.AdjustTimings | app.py:212-233 | under three entries the timing is unchanged; a low average gives focus 15 minutes shorter but not below 20 and breaks 5 minutes longer but not above 20; a high average gives focus 15 minutes longer but not above 60 and breaks unchanged but at least 5; a middle average changes nothing |
| Timing.LowAndHighExclusive | app.py:224-231 | no history counts as both low and high focus |
| Timing.AdjustUsesLastFive | app.py:219-221 | entries older than the last five never influence the adjustment |
| Timing.AdjustedCategoryBounds | app.py:212-233 | for every category and history, focus stays in [20, 60] and breaks in [5, 20] |
| Timing.PhaseDuration | app.py:235-251 | a challenging result is at most 60 and at most base + 10; a manageable result is at least 15 and at least base − 5; a moderate result equals the base (warm-up 15, main the focus time, deep 15 more) |
| Timing.PhaseDurationMonotonic | app.py:235-251 | a longer focus time never yields a shorter phase |
| Timing.DifficultyOrdered | app.py:245-251 | for bases within [15, 60], manageable ≤ moderate ≤ challenging |
| Timing.DeepCapBites | app.py:245-251 | for every focus time above 45 minutes, a challenging deep phase is shorter than a moderate one |
| Timing.CapOnlyForChallenging | app.py:226-251 | an assignment with high focus gets a 75-minute moderate deep phase but a 60-minute challenging one |
| PlanSynthesis.Pattern | app.py:76-80 | short has 2 phases, medium 3, long 4; each starts warm-up, main, and the longer ones end with deep |
| PlanSynthesis.TaskName | app.py:253-297 | with a detected subject the name mentions that subject; without one it is the general template |
| PlanSynthesis.BreakTypeOf | app.py:183 | a break is long exactly when it lasts 15 minutes or more |
| PlanSynthesis.BreakActivity | app.py:299-332 | the suggestion is always defined and is one of the combined list's; for assignments it is a general one |
| PlanSynthesis.BreakActivityPeriodic | app.py:331-332 | indices a full list-length apart give the same suggestion |
| PlanSynthesis.PlanBreaksUseGeneralActivities | app.py:178-184 | breaks 0, 1 and 2, which are all a plan has, always get the general suggestion of that index |
| PlanSynthesis.PlanMinutesClosed | app.py:177-181 | a plan's minutes are the phases' work plus one configured break per gap, plus 5 when there are more than two phases |
| PlanSynthesis.ParityAlternates | app.py:161-195 | work at even and breaks at odd positions, in a list of odd length, means the list alternates, starting and ending with work |
| PlanSynthesis.EntriesParity | app.py:161-195 | in a list of plan entries, work sits exactly at the even positions |
| PlanSynthesis.EntriesBounded | app.py:161-195 | in a plan, work entries last 15-75 minutes and breaks 5-25 |
| PlanSynthesis.AppendWork | app.py:162-175 | appending the work of phase i keeps every entry well-formed, adds one work task and adds the phase's duration |
| PlanSynthesis.AppendBreak | app.py:177-195 | appending the break after phase i keeps every entry well-formed, adds one break and adds the break's length |
| PlanSynthesis.EntriesAll | app.py:161-195 | a list built entry by entry as the plan describes has, at every position, the entry of that position |
| PlanSynthesis.ExpandPhase | app.py:161-195 | one loop iteration adds the work of phase i and, except after the last phase, its break, keeping every entry well-formed and the counts and minutes those of the first i + 1 phases |
| PlanSynthesis.ExpandPattern | app.py:157-195 | the loop yields 2n − 1 entries, n of them work and n − 1 breaks, each as the plan describes, with the plan's total minutes |
| PlanSynthesis.GenerateBasePlan | app.py:148-210 | ids are 1..len in order; work and breaks alternate, starting and ending with work; task_count = n and break_count = n − 1 match the list; total_time is the sum of durations and has the closed form; each entry has its phase's duration and name or its break's length, type and suggestion |
| SessionHistory.RecordSession | app.py:586-592 | the new session is last; the result is a suffix of the old history plus the session, of length min(old + 1, 50) |
| SessionHistory.RecordAllBounded | app.py:590-592 | however many sessions are recorded, the history never exceeds fifty |
| SessionHistory.RecordAllKeepsLatest | app.py:586-592 | after one or more recordings the history is exactly the last fifty sessions of everything recorded, in order |
| SessionHistory.LastNOfAppend | app.py:590-592 | truncating to the last n before appending more does not change the last n afterwards |

## Left out

- Flask routes, request and JSON handling, HTTP status codes, and the
  route-level check that a goal has at least two characters
  (app.py:461-634). These are I/O plumbing.
- Gemini configuration, `_generate_ai_motivation`, `get_cached_motivation`
  and `enhance_plan_with_ai`. These are a foreign network call, an
  `lru_cache` and wall-clock cache expiry.
- `_get_fallback_motivation`, which picks with `random.choice`.
- `_get_focus_insights`, the user statistics and the completion messages of
  `complete_session`. These rely on float rounding and formatting.
- Logging, `load_dotenv`, and the `__main__` attachment of `record_session`
  to the class. The truncation itself is modelled.
- The plan result's constant fields `success` and `ai_enhanced`.
- Text.Lower: lowers ASCII letters only. Python's `str.lower` is full
  Unicode (for instance U+0130 becomes "i" plus a combining dot), which
  could create keyword hits the model does not see.
- Timing.AdjustTimings: focus scores are integers. The averages of
  fractional scores, and float rounding at the 3.0 and 4.0 thresholds, are
  not modelled.
- GenerateBasePlan: the session length, category and phase are closed
  enumerations. The `KeyError` on an unknown session length or category
  cannot arise, and neither can the fallbacks of `duration_map.get` and of
  the name templates.

=== FILE: analysis.dfy ===
/** Goal analysis of the study planner (app.py, SimplifiedStudyPlanner):
    keyword scoring picks a category, the first subject whose keywords occur
    gives the subject, and counts of hard and easy indicator words give the
    difficulty. */
module GoalAnalysis {
  import opened Text

  datatype Category = Study | Revision | Assignment

  /** One row of the category table: display data, default timings and keywords. */
  datatype CategoryConfig = CategoryConfig(
    category: Category,
    icon: string,
    title: string,
    focusTime: int,
    breakTime: int,
    keywords: seq<string>)

  function ConfigOf(c: Category): (cfg: CategoryConfig)
    ensures cfg.category == c
    ensures 30 <= cfg.focusTime <= 50 && 5 <= cfg.breakTime <= 15
  {
    match c
    case Study =>
      CategoryConfig(Study, "📖", "Study Session", 45, 10,
        ["read", "chapter", "textbook", "book", "learn", "understand", "study", "material"])
    case Revision =>
      CategoryConfig(Revision, "🔄", "Review & Practice", 30, 5,
        ["review", "revise", "recall", "test", "exam", "quiz", "practice", "remember", "memorize"])
    case Assignment =>
      CategoryConfig(Assignment, "📋", "Assignment Work", 50, 15,
        ["write", "essay", "project", "assignment", "homework", "solve", "complete", "create", "build"])
  }

  /** The categories in declaration order, which is the order ties are broken in. */
  function CategoryOrder(): seq<Category> {
    [Study, Revision, Assignment]
  }

  // ---------------------------------------------------------------------
  // Category scoring and selection

  /** Some keyword equals some whole word of the goal. */
  predicate ExactWordMatch(keywords: seq<string>, words: seq<string>) {
    exists i :: 0 <= i < |keywords| && keywords[i] in words
  }

  /** A category's score for a lower-cased goal: one point per keyword that
      occurs anywhere in it, plus 2 when some keyword is a whole word of it. */
  function Score(cfg: CategoryConfig, goalLower: string): nat {
    CountHits(cfg.keywords, goalLower)
      + (if ExactWordMatch(cfg.keywords, Words(goalLower)) then 2 else 0)
  }

  /** A category scores exactly when one of its keywords occurs in the goal:
      the whole-word bonus never fires on its own. */
  lemma ScorePositiveIff(cfg: CategoryConfig, goalLower: string)
    ensures Score(cfg, goalLower) > 0
            <==> exists i :: 0 <= i < |cfg.keywords| && Contains(goalLower, cfg.keywords[i])
  {
    if ExactWordMatch(cfg.keywords, Words(goalLower)) {
      var i :| 0 <= i < |cfg.keywords| && cfg.keywords[i] in Words(goalLower);
      var k :| 0 <= k < |Words(goalLower)| && Words(goalLower)[k] == cfg.keywords[i];
      WordsOccur(goalLower);
      assert Contains(goalLower, cfg.keywords[i]);
    }
  }

  /** The whole-word bonus fires exactly when some keyword is a maximal run
      of non-separators of the goal, never on a fragment of a longer word. */
  lemma ExactWordMatchIff(keywords: seq<string>, goalLower: string)
    ensures ExactWordMatch(keywords, Words(goalLower))
            <==> exists i, p: nat :: 0 <= i < |keywords| && RunStart(goalLower, p)
                   && keywords[i] == goalLower[p..][..WordRun(goalLower[p..])]
  {
    forall i | 0 <= i < |keywords|
      ensures keywords[i] in Words(goalLower)
              <==> exists p: nat :: RunStart(goalLower, p)
                     && keywords[i] == goalLower[p..][..WordRun(goalLower[p..])]
    {
      WordsAreRuns(goalLower, keywords[i]);
    }
  }

  datatype Scored = Scored(category: Category, score: nat)

  /** The scores of all categories, in declaration order. */
  function Scores(goalLower: string): (cs: seq<Scored>)
    ensures |cs| == |CategoryOrder()|
    ensures forall i :: 0 <= i < |cs| ==>
      cs[i].category == CategoryOrder()[i] && cs[i].score == Score(ConfigOf(cs[i].category), goalLower)
  {
    var order := CategoryOrder();
    seq(|order|, i requires 0 <= i < |order| => Scored(order[i], Score(ConfigOf(order[i]), goalLower)))
  }

  datatype Option<T> = None | Some(value: T)

  /** The entry `max(category_scores, key=category_scores.get)` picks among
      the positively scored entries of `cs`: the scan replaces the current
      best only on a strictly greater score, so the first maximum stays. */
  function Best(cs: seq<Scored>): (r: Option<Scored>)
    ensures r.None? <==> forall j :: 0 <= j < |cs| ==> cs[j].score == 0
    ensures r.Some? ==>
      && r.value.score > 0
      && (forall j :: 0 <= j < |cs| ==> cs[j].score <= r.value.score)
      && exists k :: 0 <= k < |cs| && cs[k] == r.value
                     && forall j :: 0 <= j < k ==> cs[j].score < r.value.score
  {
    if |cs| == 0 then None
    else
      var prefix := cs[..|cs| - 1];
      var b := Best(prefix);
      var c := cs[|cs| - 1];
      assert forall j :: 0 <= j < |cs| - 1 ==> cs[j] == prefix[j];
      if c.score > 0 && (b.None? || c.score > b.value.score) then Some(c) else b
  }

  /** The detected category and its confidence. Without any positive score
      the category is Study and the confidence 0; otherwise it is the
      first category in declaration order with the maximal score, and the
      confidence is that score. */
  function DetectCategory(goalLower: string): (r: (Category, nat))
    ensures var cs := Scores(goalLower);
      && ((forall j :: 0 <= j < |cs| ==> cs[j].score == 0) ==> r == (Study, 0))
      && ((exists j :: 0 <= j < |cs| && cs[j].score > 0) ==>
            && r.1 > 0
            && (forall j :: 0 <= j < |cs| ==> cs[j].score <= r.1)
            && exists k :: 0 <= k < |cs| && cs[k].category == r.0 && cs[k].score == r.1
                           && forall j :: 0 <= j < k ==> cs[j].score < r.1)
  {
    match Best(Scores(goalLower))
    case None => (Study, 0)
    case Some(b) => (b.category, b.score)
  }

  /** The selection rule pins the category down: any category whose score
      is maximal and beats every earlier category is the detected one. */
  lemma DetectCategoryUnique(goalLower: string, k: nat)
    requires k < |Scores(goalLower)|
    requires Scores(goalLower)[k].score > 0
    requires forall j :: 0 <= j < |Scores(goalLower)| ==> Scores(goalLower)[j].score <= Scores(goalLower)[k].score
    requires forall j :: 0 <= j < k ==> Scores(goalLower)[j].score < Scores(goalLower)[k].score
    ensures DetectCategory(goalLower) == (Scores(goalLower)[k].category, Scores(goalLower)[k].score)
  {
    var cs := Scores(goalLower);
    var r := DetectCategory(goalLower);
    var k' :| 0 <= k' < |cs| && cs[k'].category == r.0 && cs[k'].score == r.1
              && forall j :: 0 <= j < k' ==> cs[j].score < r.1;
  }

  // ---------------------------------------------------------------------
  // Subject detection

  datatype Subject = Mathematics | Science | Language | History | Programming | Business | Art | General

  datatype SubjectRow = SubjectRow(subject: Subject, keywords: seq<string>)

  /** The subject table, in the order it is searched. */
  function SubjectTable(): (t: seq<SubjectRow>)
    ensures forall k :: 0 <= k < |t| ==> t[k].subject != General
  {
    [ SubjectRow(Mathematics, ["math", "calculus", "algebra", "statistics", "geometry", "trigonometry", "equations"]),
      SubjectRow(Science, ["physics", "chemistry", "biology", "lab", "experiment", "scientific", "molecules"]),
      SubjectRow(Language, ["english", "literature", "writing", "essay", "grammar", "reading", "composition"]),
      SubjectRow(History, ["history", "historical", "timeline", "events", "civilization", "war", "ancient"]),
      SubjectRow(Programming, ["code", "programming", "python", "javascript", "algorithm", "software", "development"]),
      SubjectRow(Business, ["business", "economics", "finance", "marketing", "management", "accounting"]),
      SubjectRow(Art, ["art", "design", "drawing", "painting", "creative", "visual", "aesthetic"]) ]
  }

  /** The name the planner uses for a subject in task names. */
  function SubjectName(s: Subject): string {
    match s
    case Mathematics => "mathematics"
    case Science => "science"
    case Language => "language"
    case History => "history"
    case Programming => "programming"
    case Business => "business"
    case Art => "art"
    case General => "general"
  }

  /** Some keyword of `keywords` occurs in `goal`. */
  predicate Mentions(goal: string, keywords: seq<string>) {
    exists i :: 0 <= i < |keywords| && Contains(goal, keywords[i])
  }

  /** The subject of the first row of `rows` mentioned by `goal`, General if none is. */
  function FirstSubject(rows: seq<SubjectRow>, goal: string): (r: Subject)
    requires forall k :: 0 <= k < |rows| ==> rows[k].subject != General
    ensures r == General <==> forall k :: 0 <= k < |rows| ==> !Mentions(goal, rows[k].keywords)
    ensures r != General ==>
      exists k :: 0 <= k < |rows| && rows[k].subject == r && Mentions(goal, rows[k].keywords)
                  && forall j :: 0 <= j < k ==> !Mentions(goal, rows[j].keywords)
  {
    if |rows| == 0 then General
    else if Mentions(goal, rows[0].keywords) then rows[0].subject
    else
      var r := FirstSubject(rows[1..], goal);
      assert forall k :: 1 <= k < |rows| ==> rows[k] == rows[1..][k - 1];
      r
  }

  /** `_detect_subject_enhanced`: the first subject in table order with a
      keyword occurring in the goal; a later match never replaces it. */
  function DetectSubject(goalLower: string): (r: Subject)
    ensures var t := SubjectTable();
      && (r == General <==> forall k :: 0 <= k < |t| ==> !Mentions(goalLower, t[k].keywords))
      && (r != General ==>
            exists k :: 0 <= k < |t| && t[k].subject == r && Mentions(goalLower, t[k].keywords)
                        && forall j :: 0 <= j < k ==> !Mentions(goalLower, t[j].keywords))
  {
    FirstSubject(SubjectTable(), goalLower)
  }

  /** A goal that mentions both mathematics and language keywords gets the
      earlier table row, Mathematics, even though Language matches too. */
  lemma FirstMatchWins()
    ensures Mentions("calculus essay", SubjectTable()[2].keywords)
    ensures DetectSubject("calculus essay") == Mathematics
  {
    var g := "calculus essay";
    assert OccursAt(g, "calculus", 0);
    ContainsAt(g, "calculus", 0);
    assert SubjectTable()[0].keywords[1] == "calculus";
    assert OccursAt(g, "essay", 9);
    ContainsAt(g, "essay", 9);
    assert SubjectTable()[2].keywords[3] == "essay";
  }

  // ---------------------------------------------------------------------
  // Difficulty

  datatype Difficulty = Challenging | Manageable | Moderate

  function HardIndicators(): seq<string> {
    ["advanced", "complex", "difficult", "comprehensive", "detailed", "analyze", "synthesize"]
  }

  function EasyIndicators(): seq<string> {
    ["basic", "simple", "introduction", "overview", "quick", "summary", "skim"]
  }

  /** `_estimate_difficulty`: compares how many hard and how many easy
      indicators occur in the goal. */
  function EstimateDifficulty(goalLower: string): (d: Difficulty)
    ensures var hard := CountHits(HardIndicators(), goalLower);
            var easy := CountHits(EasyIndicators(), goalLower);
      && (d == Challenging <==> hard > easy)
      && (d == Manageable <==> easy > hard)
      && (d == Moderate <==> hard == easy)
  {
    var hard := CountHits(HardIndicators(), goalLower);
    var easy := CountHits(EasyIndicators(), goalLower);
    if hard > easy then Challenging
    else if easy > hard then Manageable
    else Moderate
  }

  /** A goal without any indicator word is of moderate difficulty. */
  lemma NoIndicatorIsModerate(goalLower: string)
    requires forall i :: 0 <= i < |HardIndicators()| ==> !Contains(goalLower, HardIndicators()[i])
    requires forall i :: 0 <= i < |EasyIndicators()| ==> !Contains(goalLower, EasyIndicators()[i])
    ensures EstimateDifficulty(goalLower) == Moderate
  {
  }

  // ---------------------------------------------------------------------
  // The whole analysis

  datatype Analysis = Analysis(
    category: Category,
    subject: Subject,
    confidence: nat,
    difficulty: Difficulty,
    goalLength: nat)

  /** `analyze_goal_smart`: every part is computed on the lower-cased goal,
      except the word count, which is taken on the goal as given. */
  function AnalyzeGoal(goal: string): (a: Analysis)
    ensures (a.category, a.confidence) == DetectCategory(Lower(goal))
    ensures a.subject == DetectSubject(Lower(goal))
    ensures a.difficulty == EstimateDifficulty(Lower(goal))
    ensures a.goalLength == |Words(goal)|
    ensures a.confidence == 0 ==> a.category == Study
  {
    var g := Lower(goal);
    var (category, confidence) := DetectCategory(g);
    Analysis(category, DetectSubject(g), confidence, EstimateDifficulty(g), |Words(goal)|)
  }
}

=== FILE: history.dfy ===
/** The planner's session history (`record_session`): every completed
    session is appended and only the most recent fifty are kept. The
    session record itself is opaque here, so the history is generic in it. */
module SessionHistory {

  const Capacity: nat := 50

  /** The last `n` entries of `h`, or all of them when there are fewer. */
  function LastN<T>(h: seq<T>, n: nat): (r: seq<T>)
    ensures |r| == if |h| <= n then |h| else n
    ensures r == h[|h| - |r|..]
  {
    if |h| <= n then h else h[|h| - n..]
  }

  /** `record_session`: append, then truncate to the last fifty. */
  function RecordSession<T>(history: seq<T>, session: T): (r: seq<T>)
    ensures |r| == if |history| < Capacity then |history| + 1 else Capacity
    ensures r[|r| - 1] == session
    ensures r == (history + [session])[|history| + 1 - |r|..]
    ensures |history| < Capacity ==> r == history + [session]
  {
    var appended := history + [session];
    if |appended| > Capacity then appended[|appended| - Capacity..] else appended
  }

  /** Recording sessions one after another, as the planner does over its lifetime. */
  function RecordAll<T>(history: seq<T>, sessions: seq<T>): seq<T>
    decreases |sessions|
  {
    if |sessions| == 0 then history
    else RecordAll(RecordSession(history, sessions[0]), sessions[1..])
  }

  /** However many sessions are recorded, the history never grows beyond fifty. */
  lemma {:induction false} RecordAllBounded<T>(history: seq<T>, sessions: seq<T>)
    requires |history| <= Capacity
    ensures |RecordAll(history, sessions)| <= Capacity
    decreases |sessions|
  {
    if |sessions| > 0 {
      RecordAllBounded(RecordSession(history, sessions[0]), sessions[1..]);
    }
  }

  /** After at least one recording, the history is exactly the last fifty
      sessions of everything recorded so far, in order: truncating once per
      step is the same as truncating the whole stream. */
  lemma {:induction false} RecordAllKeepsLatest<T>(history: seq<T>, sessions: seq<T>)
    requires |sessions| > 0
    ensures RecordAll(history, sessions) == LastN(history + sessions, Capacity)
    decreases |sessions|
  {
    var next := RecordSession(history, sessions[0]);
    assert history + sessions == (history + [sessions[0]]) + sessions[1..];
    if |sessions| == 1 {
      assert sessions[1..] == [];
      assert history + sessions == history + [sessions[0]];
    } else {
      RecordAllKeepsLatest(next, sessions[1..]);
      LastNOfAppend(history + [sessions[0]], sessions[1..], Capacity);
    }
  }

  /** Truncating before appending more does not change the last `n`. */
  lemma LastNOfAppend<T>(a: seq<T>, b: seq<T>, n: nat)
    ensures LastN(LastN(a, n) + b, n) == LastN(a + b, n)
  {
    if |b| == 0 {
      assert a + b == a && LastN(a, n) + b == LastN(a, n);
      return;
    }
    var t := LastN(a, n);
    var x := LastN(t + b, n);
    var y := LastN(a + b, n);
    assert |x| == |y|;
    forall i | 0 <= i < |x|
      ensures x[i] == y[i]
    {
      var j := |t + b| - |x| + i;
      var j' := |a + b| - |y| + i;
      if j' >= |a| {
        assert j - |t| == j' - |a|;
      } else {
        assert j < |t|;
        assert t[j] == a[|a| - |t| + j];
      }
    }
  }
}

=== FILE: plan.dfy ===
/** Plan synthesis (`generate_base_plan` and its helpers): a phase pattern
    chosen by session length is expanded into work tasks separated by
    breaks, each with a consecutive id, a duration, a name and, for breaks,
    a type and an activity. */
module PlanSynthesis {
  import opened Text
  import opened GoalAnalysis
  import opened Timing

  datatype SessionLength = Short | Medium | Long

  /** The phase pattern of each session length. */
  function Pattern(length: SessionLength): (p: seq<Phase>)
    ensures |p| == match length case Short => 2 case Medium => 3 case Long => 4
    ensures p[0] == Warmup && p[1] == Main
    ensures |p| > 2 ==> p[|p| - 1] == Deep
  {
    match length
    case Short => [Warmup, Main]
    case Medium => [Warmup, Main, Deep]
    case Long => [Warmup, Main, Main, Deep]
  }

  // ---------------------------------------------------------------------
  // Task names

  /** A name template: the subject's name goes between `before` and `after`. */
  datatype Template = Template(before: string, after: string)

  function SubjectTemplate(c: Category, phase: Phase): Template {
    match (c, phase)
    case (Study, Warmup) => Template("Preview and organize ", " materials")
    case (Study, Main) => Template("Read and study ", " content actively")
    case (Study, Deep) => Template("Analyze and master ", " concepts")
    case (Revision, Warmup) => Template("Quick ", " review and setup")
    case (Revision, Main) => Template("Practice and test ", " recall")
    case (Revision, Deep) => Template("Deep ", " understanding check")
    case (Assignment, Warmup) => Template("Plan and organize ", " assignment")
    case (Assignment, Main) => Template("Work on ", " assignment content")
    case (Assignment, Deep) => Template("Refine and finalize ", " work")
  }

  /** The names used when no subject was detected. */
  function GeneralName(c: Category, phase: Phase): string {
    match (c, phase)
    case (Study, Warmup) => "Preview and organize materials"
    case (Study, Main) => "Read and take detailed notes"
    case (Study, Deep) => "Analyze and summarize concepts"
    case (Revision, Warmup) => "Quick review of previous work"
    case (Revision, Main) => "Active recall and practice"
    case (Revision, Deep) => "Test understanding thoroughly"
    case (Assignment, Warmup) => "Plan structure and gather resources"
    case (Assignment, Main) => "Work on main content"
    case (Assignment, Deep) => "Review and polish work"
  }

  /** `_get_phase_task_name`. Every category and phase has a template, so
      the planner's fallback labels "Focus work session" and
      "Work on <subject> <phase> task" are never produced. */
  function TaskName(phase: Phase, c: Category, s: Subject): (name: string)
    ensures s != General ==> Contains(name, SubjectName(s))
    ensures s == General ==> name == GeneralName(c, phase)
  {
    if s == General then GeneralName(c, phase)
    else
      var t := SubjectTemplate(c, phase);
      ContainsInfix(t.before, SubjectName(s), t.after);
      t.before + SubjectName(s) + t.after
  }

  // ---------------------------------------------------------------------
  // Breaks

  datatype BreakType = ShortBreak | LongBreak

  /** A break of 15 minutes or more is a long one. */
  function BreakTypeOf(duration: int): (bt: BreakType)
    ensures bt == LongBreak <==> duration >= 15
  {
    if duration >= 15 then LongBreak else ShortBreak
  }

  function GeneralActivities(bt: BreakType): (acts: seq<string>)
    ensures |acts| >= 3
  {
    match bt
    case ShortBreak => ["Stretch and hydrate briefly", "Walk around and rest eyes", "Light breathing exercise"]
    case LongBreak => ["Take a refreshing walk outside", "Healthy snack and hydration",
                       "Gentle stretching routine", "Brief mindfulness moment"]
  }

  /** Category-specific suggestions; assignments have none. */
  function CategoryActivities(c: Category, bt: BreakType): (acts: seq<string>)
    ensures c == Assignment ==> acts == []
  {
    match (c, bt)
    case (Study, ShortBreak) => ["Review notes quickly", "Organize study materials"]
    case (Study, LongBreak) => ["Discuss concepts with someone", "Write quick summary"]
    case (Revision, ShortBreak) => ["Quick concept recall test", "Review flashcards"]
    case (Revision, LongBreak) => ["Explain concept out loud", "Create memory aids"]
    case (Assignment, _) => []
  }

  /** The suggestions a break may draw from: the general ones first, then
      the category's own. */
  function Activities(bt: BreakType, c: Category): seq<string> {
    GeneralActivities(bt) + CategoryActivities(c, bt)
  }

  /** `_get_smart_break_activity`: the combined list is never empty, so the
      index wraps around it and always lands on one of its suggestions. */
  function BreakActivity(bt: BreakType, index: nat, c: Category): (act: string)
    ensures act in Activities(bt, c)
    ensures c == Assignment ==> act in GeneralActivities(bt)
  {
    var all := Activities(bt, c);
    all[index % |all|]
  }

  /** Going once around the combined list brings back the same suggestion. */
  lemma BreakActivityPeriodic(bt: BreakType, index: nat, c: Category)
    ensures BreakActivity(bt, index + |Activities(bt, c)|, c) == BreakActivity(bt, index, c)
  {
    WrapPeriodic(Activities(bt, c), index);
  }

  /** Indexing modulo the length of a list of three to six entries repeats
      after one full turn. */
  lemma WrapPeriodic<T>(xs: seq<T>, index: nat)
    requires 3 <= |xs| <= 6
    ensures xs[(index + |xs|) % |xs|] == xs[index % |xs|]
  {
    if |xs| == 3 {
      assert (index + 3) % 3 == index % 3;
    } else if |xs| == 4 {
      assert (index + 4) % 4 == index % 4;
    } else if |xs| == 5 {
      assert (index + 5) % 5 == index % 5;
    } else {
      assert (index + 6) % 6 == index % 6;
    }
  }

  /** A plan has at most three breaks, numbered 0, 1 and 2, and every
      general list has at least three suggestions, so a plan only ever uses
      general suggestions: the category-specific ones are never chosen. */
  lemma PlanBreaksUseGeneralActivities(bt: BreakType, index: nat, c: Category)
    requires index < 3
    ensures BreakActivity(bt, index, c) == GeneralActivities(bt)[index]
  {
    var general := GeneralActivities(bt);
    var all := general + CategoryActivities(c, bt);
    assert index % |all| == index;
    assert all[index] == general[index];
  }

  // ---------------------------------------------------------------------
  // Tasks and plans

  datatype TaskKind = Work(phase: Phase, category: Category) | Break(breakType: BreakType)

  datatype Task = Task(id: int, name: string, duration: int, icon: string, kind: TaskKind)

  datatype Plan = Plan(
    tasks: seq<Task>,
    analysis: Analysis,
    category: Category,
    totalTime: int,
    taskCount: nat,
    breakCount: nat)

  function SumDurations(ts: seq<Task>): int {
    if |ts| == 0 then 0 else SumDurations(ts[..|ts| - 1]) + ts[|ts| - 1].duration
  }

  function CountWork(ts: seq<Task>): nat {
    if |ts| == 0 then 0 else CountWork(ts[..|ts| - 1]) + (if ts[|ts| - 1].kind.Work? then 1 else 0)
  }

  function CountBreaks(ts: seq<Task>): nat {
    if |ts| == 0 then 0 else CountBreaks(ts[..|ts| - 1]) + (if ts[|ts| - 1].kind.Break? then 1 else 0)
  }

  /** Total work minutes of a pattern's phases. */
  function SumPhases(pattern: seq<Phase>, focusTime: int, d: Difficulty): int {
    if |pattern| == 0 then 0
    else SumPhases(pattern[..|pattern| - 1], focusTime, d) + PhaseDuration(pattern[|pattern| - 1], focusTime, d)
  }

  /** Adding one more phase adds its duration. */
  lemma SumPhasesStep(pattern: seq<Phase>, i: nat, focusTime: int, d: Difficulty)
    requires i < |pattern|
    ensures SumPhases(pattern[..i + 1], focusTime, d) == SumPhases(pattern[..i], focusTime, d) + PhaseDuration(pattern[i], focusTime, d)
  {
    assert pattern[..i + 1][..i] == pattern[..i];
  }

  /** Work and break entries alternate, starting and ending with work. */
  predicate Alternates(ts: seq<Task>) {
    && |ts| > 0
    && ts[0].kind.Work?
    && ts[|ts| - 1].kind.Work?
    && forall k :: 0 <= k < |ts| - 1 ==> (ts[k].kind.Work? <==> ts[k + 1].kind.Break?)
  }

  /** The timing a plan for analysis `a` works with. */
  function PlanTiming(a: Analysis, history: seq<int>): Timings {
    AdjustTimings(DefaultTiming(a.category), history)
  }

  /** Everything the entries of a plan are made from. */
  datatype Setting = Setting(pattern: seq<Phase>, a: Analysis, adj: Timings)

  /** Length of the break after phase `i` of `n`: the configured break
      length, 5 minutes longer before the final phase of a pattern of more
      than two phases. */
  function BreakLength(i: nat, n: nat, adj: Timings): int {
    adj.breakTime + (if i == n - 2 && n > 2 then 5 else 0)
  }

  /** What the work entry of phase `phase` looks like. */
  predicate WorkEntry(t: Task, phase: Phase, a: Analysis, adj: Timings) {
    && t.kind == Work(phase, a.category)
    && t.duration == PhaseDuration(phase, adj.focusTime, a.difficulty)
    && t.name == TaskName(phase, a.category, a.subject)
    && t.icon == ConfigOf(a.category).icon
  }

  /** What the break after phase `i` of `n` looks like: long exactly from 15
      minutes on, with the `i`-th suggestion of its type. */
  predicate BreakEntry(t: Task, i: nat, n: nat, a: Analysis, adj: Timings) {
    && t.kind.Break?
    && t.duration == BreakLength(i, n, adj)
    && (t.kind.breakType == LongBreak <==> t.duration >= 15)
    && t.name == BreakActivity(t.kind.breakType, i, a.category)
    && t.icon == "☕"
  }

  /** Entry `k` of a plan: even positions hold the work of phase k/2, odd
      positions the break after phase k/2. */
  predicate EntryAt(st: Setting, k: nat, t: Task) {
    && t.id == k + 1
    && k / 2 < |st.pattern|
    && (if k % 2 == 0 then WorkEntry(t, st.pattern[k / 2], st.a, st.adj)
        else k / 2 < |st.pattern| - 1 && BreakEntry(t, k / 2, |st.pattern|, st.a, st.adj))
  }

  /** Minutes of the entries of the first `i` phases of a plan: each
      phase's work and, except after the last phase, the break after it. */
  function PlanMinutes(st: Setting, i: nat): int
    requires i <= |st.pattern|
  {
    if i == 0 then 0
    else
      PlanMinutes(st, i - 1) + PhaseDuration(st.pattern[i - 1], st.adj.focusTime, st.a.difficulty)
        + (if i - 1 < |st.pattern| - 1 then BreakLength(i - 1, |st.pattern|, st.adj) else 0)
  }

  /** The minutes of a whole plan: the work of every phase, one break of the
      configured length per gap between phases, and 5 minutes more when
      there are more than two phases. */
  lemma {:induction false} PlanMinutesClosed(st: Setting, i: nat)
    requires 2 <= |st.pattern| && i <= |st.pattern|
    ensures var n := |st.pattern|;
      PlanMinutes(st, i)
        == SumPhases(st.pattern[..i], st.adj.focusTime, st.a.difficulty)
           + (if i < n then i else n - 1) * st.adj.breakTime
           + (if n > 2 && i >= n - 1 then 5 else 0)
  {
    if i > 0 {
      PlanMinutesClosed(st, i - 1);
      PlanMinutesStep(st, i);
    }
  }

  /** The closed form for `i` phases follows from the one for `i - 1`. */
  lemma PlanMinutesStep(st: Setting, i: nat)
    requires 2 <= |st.pattern| && 0 < i <= |st.pattern|
    requires var n := |st.pattern|;
      PlanMinutes(st, i - 1)
        == SumPhases(st.pattern[..i - 1], st.adj.focusTime, st.a.difficulty)
           + (if i - 1 < n then i - 1 else n - 1) * st.adj.breakTime
           + (if n > 2 && i - 1 >= n - 1 then 5 else 0)
    ensures var n := |st.pattern|;
      PlanMinutes(st, i)
        == SumPhases(st.pattern[..i], st.adj.focusTime, st.a.difficulty)
           + (if i < n then i else n - 1) * st.adj.breakTime
           + (if n > 2 && i >= n - 1 then 5 else 0)
  {
    SumPhasesStep(st.pattern, i - 1, st.adj.focusTime, st.a.difficulty);
    var b := st.adj.breakTime;
    if i < |st.pattern| {
      MulStep(i, b);
    }
  }

  lemma MulStep(i: int, b: int)
    ensures i * b == (i - 1) * b + b
  {
  }

  lemma AppendTask(ts: seq<Task>, t: Task)
    ensures SumDurations(ts + [t]) == SumDurations(ts) + t.duration
    ensures CountWork(ts + [t]) == CountWork(ts) + (if t.kind.Work? then 1 else 0)
    ensures CountBreaks(ts + [t]) == CountBreaks(ts) + (if t.kind.Break? then 1 else 0)
  {
    assert (ts + [t])[..|ts|] == ts;
  }

  /** Even positions hold work, odd positions breaks. */
  lemma EntryKind(st: Setting, k: nat, t: Task)
    requires EntryAt(st, k, t)
    ensures t.kind.Work? <==> k % 2 == 0
  {
  }

  /** In a list made of plan entries, work sits at even and breaks at odd positions. */
  lemma EntriesParity(st: Setting, ts: seq<Task>)
    requires forall k :: 0 <= k < |ts| ==> EntryAt(st, k, ts[k])
    ensures forall k :: 0 <= k < |ts| ==> (ts[k].kind.Work? <==> k % 2 == 0)
  {
    forall k | 0 <= k < |ts|
      ensures ts[k].kind.Work? <==> k % 2 == 0
    {
      EntryKind(st, k, ts[k]);
    }
  }

  /** `ts` is made of plan entries: entry `k` is `EntryAt` position `k`.
      Stated position by position from the end, so that appending one task
      only needs the new task checked. */
  predicate Entries(st: Setting, ts: seq<Task>)
    decreases |ts|
  {
    |ts| == 0 || (Entries(st, ts[..|ts| - 1]) && EntryAt(st, |ts| - 1, ts[|ts| - 1]))
  }

  /** Appending the next entry keeps a list made of plan entries. */
  lemma EntriesAppend(st: Setting, ts: seq<Task>, t: Task)
    requires Entries(st, ts) && EntryAt(st, |ts|, t)
    ensures Entries(st, ts + [t])
  {
    assert (ts + [t])[..|ts|] == ts;
  }

  /** Every entry of a list made of plan entries is the entry of its position. */
  lemma {:induction false} EntriesAll(st: Setting, ts: seq<Task>)
    requires Entries(st, ts)
    ensures forall k :: 0 <= k < |ts| ==> EntryAt(st, k, ts[k])
    decreases |ts|
  {
    if |ts| > 0 {
      var front := ts[..|ts| - 1];
      EntriesAll(st, front);
      forall k | 0 <= k < |ts|
        ensures EntryAt(st, k, ts[k])
      {
        if k < |ts| - 1 {
          assert ts[k] == front[k];
        }
      }
    }
  }

  /** A list with work at even and breaks at odd positions, of odd length,
      alternates between work and breaks. */
  lemma ParityAlternates(ts: seq<Task>)
    requires |ts| % 2 == 1
    requires forall k :: 0 <= k < |ts| ==> (ts[k].kind.Work? <==> k % 2 == 0)
    ensures Alternates(ts)
  {
    forall k | 0 <= k < |ts| - 1
      ensures ts[k].kind.Work? <==> ts[k + 1].kind.Break?
    {
      assert k % 2 == 0 <==> (k + 1) % 2 == 1;
    }
  }

  /** Work entries last 15 to 75 minutes and breaks 5 to 25, whatever the
      category, difficulty and focus history. */
  lemma EntriesBounded(st: Setting, history: seq<int>, ts: seq<Task>)
    requires st.adj == PlanTiming(st.a, history)
    requires forall k :: 0 <= k < |ts| ==> EntryAt(st, k, ts[k])
    ensures forall k :: 0 <= k < |ts| && ts[k].kind.Work? ==> 15 <= ts[k].duration <= 75
    ensures forall k :: 0 <= k < |ts| && ts[k].kind.Break? ==> 5 <= ts[k].duration <= 25
  {
    AdjustedCategoryBounds(st.a.category, history);
    forall k | 0 <= k < |ts|
      ensures ts[k].kind.Work? ==> 15 <= ts[k].duration <= 75
      ensures ts[k].kind.Break? ==> 5 <= ts[k].duration <= 25
    {
      assert EntryAt(st, k, ts[k]);
    }
  }

  /** The work entry of phase `i` sits at position `2 i`. */
  lemma WorkAt(st: Setting, i: nat, t: Task)
    requires i < |st.pattern| && t.id == 2 * i + 1
    requires WorkEntry(t, st.pattern[i], st.a, st.adj)
    ensures EntryAt(st, 2 * i, t)
  {
    Halves(i);
  }

  /** The break after phase `i` sits at position `2 i + 1`. */
  lemma BreakAt(st: Setting, i: nat, t: Task)
    requires i < |st.pattern| - 1 && t.id == 2 * i + 2
    requires BreakEntry(t, i, |st.pattern|, st.a, st.adj)
    ensures EntryAt(st, 2 * i + 1, t)
  {
    Halves(i);
  }

  lemma Halves(i: nat)
    ensures (2 * i) / 2 == i && (2 * i) % 2 == 0
    ensures (2 * i + 1) / 2 == i && (2 * i + 1) % 2 == 1
  {
  }

  /** The work entry of phase `i`, appended after the entries of the earlier phases. */
  method AppendWork(st: Setting, tasks: seq<Task>, i: nat) returns (next: seq<Task>)
    requires i < |st.pattern| && |tasks| == 2 * i
    requires Entries(st, tasks)
    ensures |next| == |tasks| + 1
    ensures Entries(st, next)
    ensures CountWork(next) == CountWork(tasks) + 1
    ensures CountBreaks(next) == CountBreaks(tasks)
    ensures SumDurations(next)
            == SumDurations(tasks) + PhaseDuration(st.pattern[i], st.adj.focusTime, st.a.difficulty)
  {
    var a := st.a;
    var phase := st.pattern[i];
    var duration := PhaseDuration(phase, st.adj.focusTime, a.difficulty);
    var work := Task(|tasks| + 1, TaskName(phase, a.category, a.subject), duration,
                     ConfigOf(a.category).icon, Work(phase, a.category));
    WorkAt(st, i, work);
    EntriesAppend(st, tasks, work);
    AppendTask(tasks, work);
    next := tasks + [work];
  }

  /** The break after phase `i`, appended after that phase's work entry.
      The break before the final phase of a pattern of more than two
      phases is 5 minutes longer; 15 minutes or more make a long break. */
  method AppendBreak(st: Setting, tasks: seq<Task>, i: nat) returns (next: seq<Task>)
    requires i < |st.pattern| - 1 && |tasks| == 2 * i + 1
    requires Entries(st, tasks)
    ensures |next| == |tasks| + 1
    ensures Entries(st, next)
    ensures CountWork(next) == CountWork(tasks)
    ensures CountBreaks(next) == CountBreaks(tasks) + 1
    ensures SumDurations(next) == SumDurations(tasks) + BreakLength(i, |st.pattern|, st.adj)
  {
    var n := |st.pattern|;
    var breakDuration := st.adj.breakTime;
    if i == n - 2 && n > 2 {
      breakDuration := breakDuration + 5;
    }
    var breakType := BreakTypeOf(breakDuration);
    var rest := Task(|tasks| + 1, BreakActivity(breakType, i, st.a.category), breakDuration, "☕", Break(breakType));
    BreakAt(st, i, rest);
    EntriesAppend(st, tasks, rest);
    AppendTask(tasks, rest);
    next := tasks + [rest];
  }

  /** The generation loop: for each phase its work entry and, except after
      the last phase, a break. */
  method ExpandPattern(st: Setting) returns (tasks: seq<Task>)
    requires |st.pattern| >= 2
    ensures |tasks| == 2 * |st.pattern| - 1
    ensures Entries(st, tasks)
    ensures CountWork(tasks) == |st.pattern| && CountBreaks(tasks) == |st.pattern| - 1
    ensures SumDurations(tasks) == PlanMinutes(st, |st.pattern|)
  {
    var pattern := st.pattern;
    var n := |pattern|;
    tasks := [];
    var i := 0;
    while i < n
      invariant 0 <= i <= n
      invariant |tasks| == if i == n then 2 * n - 1 else 2 * i
      invariant Entries(st, tasks)
      invariant CountWork(tasks) == i
      invariant CountBreaks(tasks) == if i == n then n - 1 else i
      invariant SumDurations(tasks) == PlanMinutes(st, i)
    {
      tasks := ExpandPhase(st, tasks, i);
      i := i + 1;
    }
  }

  /** One round of the generation loop: the work entry of phase `i` and,
      unless it is the last phase, the break after it. */
  method ExpandPhase(st: Setting, tasks: seq<Task>, i: nat) returns (next: seq<Task>)
    requires i < |st.pattern| && |tasks| == 2 * i
    requires Entries(st, tasks)
    requires CountWork(tasks) == i && CountBreaks(tasks) == i
    requires SumDurations(tasks) == PlanMinutes(st, i)
    ensures |next| == if i + 1 == |st.pattern| then 2 * i + 1 else 2 * i + 2
    ensures Entries(st, next)
    ensures CountWork(next) == i + 1
    ensures CountBreaks(next) == if i + 1 == |st.pattern| then i else i + 1
    ensures SumDurations(next) == PlanMinutes(st, i + 1)
  {
    PlanMinutesNext(st, i);
    next := AppendWork(st, tasks, i);
    if i < |st.pattern| - 1 {
      next := AppendBreak(st, next, i);
    }
  }

  /** One more phase adds its work and, unless it is the last, its break. */
  lemma PlanMinutesNext(st: Setting, i: nat)
    requires i < |st.pattern|
    ensures i < |st.pattern| - 1 ==>
      (PlanMinutes(st, i + 1)
       == PlanMinutes(st, i) + PhaseDuration(st.pattern[i], st.adj.focusTime, st.a.difficulty)
          + BreakLength(i, |st.pattern|, st.adj))
    ensures i == |st.pattern| - 1 ==>
      (PlanMinutes(st, i + 1)
       == PlanMinutes(st, i) + PhaseDuration(st.pattern[i], st.adj.focusTime, st.a.difficulty))
  {
  }

  /** The entries the loop builds form a plan: each the entry of its
      position, alternating from work to work, within the duration bounds. */
  lemma PlanShape(st: Setting, history: seq<int>, ts: seq<Task>)
    requires st.adj == PlanTiming(st.a, history)
    requires |ts| % 2 == 1 && Entries(st, ts)
    ensures forall k :: 0 <= k < |ts| ==> EntryAt(st, k, ts[k])
    ensures Alternates(ts)
    ensures forall k :: 0 <= k < |ts| && ts[k].kind.Work? ==> 15 <= ts[k].duration <= 75
    ensures forall k :: 0 <= k < |ts| && ts[k].kind.Break? ==> 5 <= ts[k].duration <= 25
  {
    EntriesAll(st, ts);
    EntriesParity(st, ts);
    ParityAlternates(ts);
    EntriesBounded(st, history, ts);
  }

  /** The closed form of the minutes of the whole pattern. */
  lemma PlanMinutesTotal(st: Setting)
    requires 2 <= |st.pattern|
    ensures var n := |st.pattern|;
      PlanMinutes(st, n)
        == SumPhases(st.pattern, st.adj.focusTime, st.a.difficulty)
           + (n - 1) * st.adj.breakTime + (if n > 2 then 5 else 0)
  {
    PlanMinutesClosed(st, |st.pattern|);
    assert st.pattern[..|st.pattern|] == st.pattern;
  }

  /** `generate_base_plan` for a known session length. */
  method GenerateBasePlan(a: Analysis, length: SessionLength, history: seq<int>) returns (p: Plan)
    ensures p.analysis == a && p.category == a.category
    ensures var n := |Pattern(length)|;
      && |p.tasks| == 2 * n - 1
      && p.taskCount == n && p.breakCount == n - 1
    ensures forall k :: 0 <= k < |p.tasks| ==>
      EntryAt(Setting(Pattern(length), a, PlanTiming(a, history)), k, p.tasks[k])
    ensures Alternates(p.tasks)
    ensures p.taskCount == CountWork(p.tasks) && p.breakCount == CountBreaks(p.tasks)
    ensures p.totalTime == SumDurations(p.tasks)
    ensures var n := |Pattern(length)|;
            var adj := PlanTiming(a, history);
      p.totalTime == SumPhases(Pattern(length), adj.focusTime, a.difficulty)
                     + (n - 1) * adj.breakTime + (if n > 2 then 5 else 0)
    ensures forall k :: 0 <= k < |p.tasks| && p.tasks[k].kind.Work? ==> 15 <= p.tasks[k].duration <= 75
    ensures forall k :: 0 <= k < |p.tasks| && p.tasks[k].kind.Break? ==> 5 <= p.tasks[k].duration <= 25
  {
    var pattern := Pattern(length);
    var n := |pattern|;
    var adj := AdjustTimings(DefaultTiming(a.category), history);
    var st := Setting(pattern, a, adj);
    var tasks := ExpandPattern(st);
    PlanShape(st, history, tasks);
    PlanMinutesTotal(st);
    p := Plan(tasks, a, a.category, SumDurations(tasks), CountWork(tasks), CountBreaks(tasks));
  }
}

=== FILE: text.dfy ===
/** String helpers the planner relies on: lower-casing a goal, splitting it
    into whitespace-separated words, and substring search ("keyword in goal"). */
module Text {

  /** Characters for which Python's str.isspace() holds; these are the
      separators str.split() (with no argument) cuts on. */
  predicate IsSpace(c: char) {
    || c == ' ' || c == '\t' || c == '\n' || c == '\r'
    || c == '\U{B}' || c == '\U{C}'
    || ('\U{1C}' <= c <= '\U{1F}')
    || c == '\U{85}' || c == '\U{A0}' || c == '\U{1680}'
    || ('\U{2000}' <= c <= '\U{200A}')
    || c == '\U{2028}' || c == '\U{2029}' || c == '\U{202F}'
    || c == '\U{205F}' || c == '\U{3000}'
  }

  predicate IsUpper(c: char) {
    'A' <= c <= 'Z'
  }

  function LowerChar(c: char): (r: char)
    ensures !IsUpper(r)
    ensures IsUpper(c) ==> r as int == c as int + 32
    ensures !IsUpper(c) ==> r == c
  {
    if IsUpper(c) then (c as int + 32) as char else c
  }

  /** Lower-cases the ASCII letters of `s` and leaves every other character alone. */
  function Lower(s: string): (r: string)
    ensures |r| == |s|
    ensures forall i :: 0 <= i < |s| ==> r[i] == LowerChar(s[i])
  {
    if |s| == 0 then [] else [LowerChar(s[0])] + Lower(s[1..])
  }

  /** Lower-casing twice is lower-casing once. */
  lemma LowerIdempotent(s: string)
    ensures Lower(Lower(s)) == Lower(s)
  {
  }

  /** Lower-casing keeps every separator where it was. */
  lemma LowerKeepsSpaces(s: string)
    ensures forall i :: 0 <= i < |s| ==> (IsSpace(Lower(s)[i]) <==> IsSpace(s[i]))
  {
  }

  // ---------------------------------------------------------------------
  // Substring search

  /** `sub` occurs in `s` starting at index `i`. */
  predicate OccursAt(s: string, sub: string, i: nat) {
    i + |sub| <= |s| && s[i..i + |sub|] == sub
  }

  /** Python's `sub in s`: a left-to-right scan for an occurrence. */
  function Contains(s: string, sub: string): bool
    decreases |s|
  {
    if |sub| > |s| then false
    else if s[..|sub|] == sub then true
    else Contains(s[1..], sub)
  }

  /** The scan finds `sub` exactly when it occurs somewhere in `s`. */
  lemma {:induction false} ContainsIff(s: string, sub: string)
    ensures Contains(s, sub) <==> exists i: nat :: OccursAt(s, sub, i)
    decreases |s|
  {
    if |sub| > |s| {
      assert forall i: nat :: !OccursAt(s, sub, i);
    } else if s[..|sub|] == sub {
      assert OccursAt(s, sub, 0);
    } else {
      ContainsIff(s[1..], sub);
      if Contains(s[1..], sub) {
        var i: nat :| OccursAt(s[1..], sub, i);
        assert s[i + 1..i + 1 + |sub|] == s[1..][i..i + |sub|];
        assert OccursAt(s, sub, i + 1);
      } else {
        forall i: nat | OccursAt(s, sub, i)
          ensures false
        {
          if i > 0 {
            assert s[1..][i - 1..i - 1 + |sub|] == s[i..i + |sub|];
            assert OccursAt(s[1..], sub, i - 1);
          }
        }
      }
    }
  }

  /** A string found at index `i` is found by the scan. */
  lemma ContainsAt(s: string, sub: string, i: nat)
    requires OccursAt(s, sub, i)
    ensures Contains(s, sub)
  {
    ContainsIff(s, sub);
  }

  /** `s` occurs in any string that embeds it between a prefix and a suffix. */
  lemma ContainsInfix(a: string, s: string, b: string)
    ensures Contains(a + s + b, s)
  {
    assert (a + s + b)[|a|..|a| + |s|] == s;
    ContainsAt(a + s + b, s, |a|);
  }

  /** Number of strings of `keywords` that occur in `s`: Python's
      `sum(1 for k in keywords if k in s)`. */
  function CountHits(keywords: seq<string>, s: string): (r: nat)
    ensures r <= |keywords|
    ensures r > 0 <==> exists i :: 0 <= i < |keywords| && Contains(s, keywords[i])
  {
    if |keywords| == 0 then 0
    else
      var rest := CountHits(keywords[1..], s);
      assert forall i :: 1 <= i < |keywords| ==> keywords[i] == keywords[1..][i - 1];
      (if Contains(s, keywords[0]) then 1 else 0) + rest
  }

  /** The indices of the keywords at or after `lo` that occur in `s`. */
  ghost function HitsFrom(keywords: seq<string>, s: string, lo: nat): set<int> {
    set i | lo <= i < |keywords| && Contains(s, keywords[i])
  }

  /** Counting the keywords from `lo` on counts exactly the indices that hit. */
  lemma {:induction false} CountHitsFrom(keywords: seq<string>, s: string, lo: nat)
    requires lo <= |keywords|
    ensures CountHits(keywords[lo..], s) == |HitsFrom(keywords, s, lo)|
    decreases |keywords| - lo
  {
    if lo == |keywords| {
      assert HitsFrom(keywords, s, lo) == {};
    } else {
      CountHitsFrom(keywords, s, lo + 1);
      assert keywords[lo..][1..] == keywords[lo + 1..];
      assert keywords[lo..][0] == keywords[lo];
      var rest := HitsFrom(keywords, s, lo + 1);
      if Contains(s, keywords[lo]) {
        assert HitsFrom(keywords, s, lo) == rest + {lo};
        assert lo !in rest;
      } else {
        assert HitsFrom(keywords, s, lo) == rest;
      }
    }
  }

  /** The indices of the keywords that occur in `s`. */
  ghost function Hits(keywords: seq<string>, s: string): set<int> {
    set i | 0 <= i < |keywords| && Contains(s, keywords[i])
  }

  /** `CountHits` is the number of keywords that occur in `s`. */
  lemma CountHitsCounts(keywords: seq<string>, s: string)
    ensures CountHits(keywords, s) == |Hits(keywords, s)|
  {
    CountHitsFrom(keywords, s, 0);
    assert keywords[0..] == keywords;
    assert HitsFrom(keywords, s, 0) == Hits(keywords, s);
  }

  // ---------------------------------------------------------------------
  // Whitespace splitting

  /** Length of the longest separator-free prefix of `s`. */
  function WordRun(s: string): (n: nat)
    ensures n <= |s|
    ensures forall i :: 0 <= i < n ==> !IsSpace(s[i])
    ensures n < |s| ==> IsSpace(s[n])
  {
    if |s| == 0 || IsSpace(s[0]) then 0 else 1 + WordRun(s[1..])
  }

  /** `w` is a non-empty run of non-separator characters. */
  predicate IsWord(w: string) {
    |w| > 0 && forall i :: 0 <= i < |w| ==> !IsSpace(w[i])
  }

  /** Python's `s.split()`: the maximal runs of non-separator characters, in order. */
  function Words(s: string): (ws: seq<string>)
    ensures forall k :: 0 <= k < |ws| ==> IsWord(ws[k])
    decreases |s|
  {
    if |s| == 0 then []
    else if IsSpace(s[0]) then Words(s[1..])
    else
      var n := WordRun(s);
      assert IsWord(s[..n]);
      [s[..n]] + Words(s[n..])
  }

  /** An occurrence in a suffix of `s` is an occurrence in `s`, shifted. */
  lemma OccursShift(s: string, off: nat, v: string, i: nat)
    requires off <= |s| && OccursAt(s[off..], v, i)
    ensures OccursAt(s, v, off + i)
  {
    assert s[off + i..off + i + |v|] == s[off..][i..i + |v|];
  }

  /** The position at which the `k`-th word of `s` starts. */
  lemma {:induction false} WordOffset(s: string, k: nat) returns (i: nat)
    requires k < |Words(s)|
    ensures OccursAt(s, Words(s)[k], i)
    decreases |s|
  {
    if IsSpace(s[0]) {
      var j := WordOffset(s[1..], k);
      OccursShift(s, 1, Words(s[1..])[k], j);
      i := 1 + j;
    } else {
      var n := WordRun(s);
      if k == 0 {
        i := 0;
      } else {
        var j := WordOffset(s[n..], k - 1);
        OccursShift(s, n, Words(s[n..])[k - 1], j);
        i := n + j;
      }
    }
  }

  /** Every word of `s` occurs in `s`. */
  lemma WordsOccur(s: string)
    ensures forall k :: 0 <= k < |Words(s)| ==> Contains(s, Words(s)[k])
  {
    forall k | 0 <= k < |Words(s)|
      ensures Contains(s, Words(s)[k])
    {
      var i := WordOffset(s, k);
      ContainsAt(s, Words(s)[k], i);
    }
  }

  /** Completeness of the split: every maximal run of non-separators, one
      that starts at the beginning of `s` or right after a separator, is one
      of the words. */
  lemma WordsComplete(s: string, i: nat)
    requires i < |s| && !IsSpace(s[i]) && (i == 0 || IsSpace(s[i - 1]))
    ensures s[i..i + WordRun(s[i..])] in Words(s)
  {
    var k := WordIndexOfRun(s, i);
    IndexIn(Words(s), k);
  }

  /** The position in the split of the run read from index `i`. */
  lemma WordIndexOfRun(s: string, i: nat) returns (k: nat)
    requires i < |s| && !IsSpace(s[i]) && (i == 0 || IsSpace(s[i - 1]))
    ensures k < |Words(s)| && Words(s)[k] == s[i..i + WordRun(s[i..])]
  {
    k := RunIndex(s, i);
    SliceOfSuffix(s, i, WordRun(s[i..]));
  }

  /** An element of a sequence is in it. */
  lemma IndexIn<T>(xs: seq<T>, k: nat)
    requires k < |xs|
    ensures xs[k] in xs
  {
  }

  /** Taking `m` from the suffix at `i` is the slice from `i` to `i + m`. */
  lemma SliceOfSuffix<T>(s: seq<T>, i: nat, m: nat)
    requires i + m <= |s|
    ensures s[i..][..m] == s[i..i + m]
  {
  }

  /** The position in the split of the run read from index `i`, when that
      run starts the string or follows a separator. */
  lemma {:induction false} RunIndex(s: string, i: nat) returns (k: nat)
    requires i < |s| && !IsSpace(s[i]) && (i == 0 || IsSpace(s[i - 1]))
    ensures k < |Words(s)| && Words(s)[k] == s[i..][..WordRun(s[i..])]
    decreases |s|
  {
    if IsSpace(s[0]) {
      assert s[1..][i - 1] == s[i];
      assert i - 1 > 0 ==> s[1..][i - 2] == s[i - 1];
      k := RunIndex(s[1..], i - 1);
    } else if i == 0 {
      assert s[0..] == s;
      k := 0;
    } else {
      var n := WordRun(s);
      assert n < i;
      assert s[n..][i - n] == s[i];
      assert i - n > 0 ==> s[n..][i - n - 1] == s[i - 1];
      var r := RunIndex(s[n..], i - n);
      k := r + 1;
    }
  }

  /** Index `i` of `s` starts a maximal run of non-separators: it holds a
      non-separator and is the first index or follows a separator. */
  predicate RunStart(s: string, i: nat) {
    i < |s| && !IsSpace(s[i]) && (i == 0 || IsSpace(s[i - 1]))
  }

  /** Soundness of the split: the `k`-th word is the maximal run read from
      some run start `i` of `s`, so no word is a fragment of a longer run. */
  lemma {:induction false} WordStart(s: string, k: nat) returns (i: nat)
    requires k < |Words(s)|
    ensures RunStart(s, i)
    ensures Words(s)[k] == s[i..][..WordRun(s[i..])]
    decreases |s|, 1
  {
    if IsSpace(s[0]) {
      WordsSkip(s);
      i := SuffixWordStart(s, 1, k);
    } else if k == 0 {
      WordsFirst(s);
      i := 0;
    } else {
      var n := WordsRest(s, k);
      i := SuffixWordStart(s, n, k - 1);
    }
  }

  /** A word of the suffix at `off`, cut at a separator, starts at a run
      start of `s`. */
  lemma {:induction false} SuffixWordStart(s: string, off: nat, k: nat) returns (i: nat)
    requires 0 < off <= |s| && k < |Words(s[off..])|
    requires IsSpace(s[off - 1]) || (off < |s| && IsSpace(s[off]))
    ensures RunStart(s, i)
    ensures Words(s[off..])[k] == s[i..][..WordRun(s[i..])]
    decreases |s|, 0
  {
    var j := WordStart(s[off..], k);
    i := ShiftStart(s, off, j, Words(s[off..])[k]);
  }

  /** A leading separator contributes no word. */
  lemma WordsSkip(s: string)
    requires |s| > 0 && IsSpace(s[0])
    ensures Words(s) == Words(s[1..])
  {
  }

  /** Without a leading separator, the first word is the run at index 0. */
  lemma WordsFirst(s: string)
    requires |s| > 0 && !IsSpace(s[0])
    ensures |Words(s)| > 0 && Words(s)[0] == s[0..][..WordRun(s[0..])]
  {
    assert s[0..] == s;
  }

  /** Without a leading separator, every later word is a word of the rest
      after the first run, and that rest starts with a separator. */
  lemma WordsRest(s: string, k: nat) returns (n: nat)
    requires |s| > 0 && !IsSpace(s[0]) && 0 < k < |Words(s)|
    ensures n == WordRun(s) && 0 < n < |s| && IsSpace(s[n])
    ensures k - 1 < |Words(s[n..])| && Words(s)[k] == Words(s[n..])[k - 1]
  {
    n := WordRun(s);
  }

  /** A run start `j` of the suffix at `off` is the run start `off + j` of
      `s`, when `off` is 0, follows a separator or holds one, and the run
      read there is the same. */
  lemma ShiftStart(s: string, off: nat, j: nat, w: string) returns (i: nat)
    requires off <= |s| && RunStart(s[off..], j)
    requires j == 0 ==> off == 0 || IsSpace(s[off - 1]) || (off < |s| && IsSpace(s[off]))
    requires w == s[off..][j..][..WordRun(s[off..][j..])]
    ensures i == off + j && RunStart(s, i)
    ensures w == s[i..][..WordRun(s[i..])]
  {
    i := off + j;
    assert s[off..][j..] == s[i..];
    assert s[off..][j] == s[i];
    if j > 0 {
      assert s[off..][j - 1] == s[i - 1];
    }
  }

  /** A string is a word of the split exactly when it is the maximal run
      read from a run start. */
  lemma WordsAreRuns(s: string, w: string)
    ensures w in Words(s) <==> exists i: nat :: RunStart(s, i) && w == s[i..][..WordRun(s[i..])]
  {
    if w in Words(s) {
      var k :| 0 <= k < |Words(s)| && Words(s)[k] == w;
      var i := WordStart(s, k);
    }
    if exists i: nat :: RunStart(s, i) && w == s[i..][..WordRun(s[i..])] {
      var i: nat :| RunStart(s, i) && w == s[i..][..WordRun(s[i..])];
      var k := RunIndex(s, i);
      IndexIn(Words(s), k);
    }
  }

  /** A string without separators is one word when non-empty and no words when empty. */
  lemma SingleWord(s: string)
    requires forall i :: 0 <= i < |s| ==> !IsSpace(s[i])
    ensures Words(s) == if |s| == 0 then [] else [s]
  {
    if |s| > 0 {
      assert WordRun(s) == |s|;
      assert s[..|s|] == s;
      assert Words(s[|s|..]) == [];
    }
  }
}

=== FILE: timing.dfy ===
/** Session timings: the history-based adjustment of a category's focus and
    break minutes (`_adjust_timings`) and the per-phase work duration
    (`_get_phase_duration`). Focus scores are whole numbers, so "the average
    is below 3.0" reads "the sum is below 3 times the count". */
module Timing {
  import opened GoalAnalysis

  /** A category's focus and break minutes. */
  datatype Timings = Timings(focusTime: int, breakTime: int)

  /** The default timing of a category, before any adjustment. */
  function DefaultTiming(c: Category): Timings {
    Timings(ConfigOf(c).focusTime, ConfigOf(c).breakTime)
  }

  function Sum(xs: seq<int>): int {
    if |xs| == 0 then 0 else Sum(xs[..|xs| - 1]) + xs[|xs| - 1]
  }

  /** The entries the average is taken over: the last five, or all of them when fewer. */
  function Recent(history: seq<int>): (r: seq<int>)
    ensures |r| == if |history| >= 5 then 5 else |history|
    ensures r == history[|history| - |r|..]
  {
    if |history| >= 5 then history[|history| - 5..] else history
  }

  /** The average of the recent entries is below 3.0. */
  predicate LowFocus(history: seq<int>) {
    Sum(Recent(history)) < 3 * |Recent(history)|
  }

  /** The average of the recent entries is above 4.0. */
  predicate HighFocus(history: seq<int>) {
    Sum(Recent(history)) > 4 * |Recent(history)|
  }

  /** `_adjust_timings`. With fewer than three entries nothing changes; a low
      average shortens focus by 15 minutes (not below 20) and lengthens
      breaks by 5 (not above 20); a high average lengthens focus by 15
      minutes (not above 60) and keeps breaks, raised to 5 if shorter; a
      middle average changes nothing. Each clamped value is stated as the
      one of the step and the bound that lies on the right side of both. */
  function AdjustTimings(cfg: Timings, history: seq<int>): (r: Timings)
    ensures |history| < 3 ==> r == cfg
    ensures |history| >= 3 && LowFocus(history) ==>
      && r.focusTime >= 20 && r.focusTime >= cfg.focusTime - 15
      && (r.focusTime == cfg.focusTime - 15 || r.focusTime == 20)
      && r.breakTime <= 20 && r.breakTime <= cfg.breakTime + 5
      && (r.breakTime == cfg.breakTime + 5 || r.breakTime == 20)
    ensures |history| >= 3 && HighFocus(history) ==>
      && r.focusTime <= 60 && r.focusTime <= cfg.focusTime + 15
      && (r.focusTime == cfg.focusTime + 15 || r.focusTime == 60)
      && r.breakTime >= 5 && r.breakTime >= cfg.breakTime
      && (r.breakTime == cfg.breakTime || r.breakTime == 5)
    ensures |history| >= 3 && !LowFocus(history) && !HighFocus(history) ==> r == cfg
  {
    if |history| < 3 then cfg
    else if LowFocus(history) then
      Timings(Max(20, cfg.focusTime - 15), Min(20, cfg.breakTime + 5))
    else if HighFocus(history) then
      Timings(Min(60, cfg.focusTime + 15), Max(5, cfg.breakTime))
    else cfg
  }

  function Min(a: int, b: int): int { if a <= b then a else b }
  function Max(a: int, b: int): int { if a >= b then a else b }

  /** An average cannot be both below 3.0 and above 4.0. */
  lemma LowAndHighExclusive(history: seq<int>)
    ensures !(LowFocus(history) && HighFocus(history))
  {
  }

  /** Only the last five entries matter: older history is ignored. */
  lemma AdjustUsesLastFive(cfg: Timings, older: seq<int>, history: seq<int>)
    requires |history| >= 5
    ensures AdjustTimings(cfg, older + history) == AdjustTimings(cfg, history)
  {
    var all := older + history;
    assert all[|all| - 5..] == history[|history| - 5..];
  }

  /** For every category the adjusted timing stays within the bounds that
      follow from the category table and the clamps: focus between 20 and
      60 minutes, breaks between 5 and 20. */
  lemma AdjustedCategoryBounds(c: Category, history: seq<int>)
    ensures var t := AdjustTimings(DefaultTiming(c), history);
      20 <= t.focusTime <= 60 && 5 <= t.breakTime <= 20
  {
  }

  // ---------------------------------------------------------------------
  // Phase durations

  datatype Phase = Warmup | Main | Deep

  /** Undifferentiated phase length: warm-up is always 15 minutes, the main
      phase takes the focus time and the deep phase 15 minutes more. */
  function PhaseBase(phase: Phase, focusTime: int): int {
    match phase
    case Warmup => 15
    case Main => focusTime
    case Deep => focusTime + 15
  }

  /** `_get_phase_duration`: challenging goals add 10 minutes but never
      exceed 60, manageable goals drop 5 but never go below 15, moderate
      goals keep the phase's base length. */
  function PhaseDuration(phase: Phase, focusTime: int, d: Difficulty): (r: int)
    ensures var base := PhaseBase(phase, focusTime);
      && (d == Challenging ==> r <= 60 && r <= base + 10 && (r == 60 || r == base + 10))
      && (d == Manageable ==> r >= 15 && r >= base - 5 && (r == 15 || r == base - 5))
      && (d == Moderate ==> r == base)
  {
    var base := PhaseBase(phase, focusTime);
    match d
    case Challenging => Min(60, base + 10)
    case Manageable => Max(15, base - 5)
    case Moderate => base
  }

  /** A longer focus time never gives a shorter phase. */
  lemma PhaseDurationMonotonic(phase: Phase, f1: int, f2: int, d: Difficulty)
    requires f1 <= f2
    ensures PhaseDuration(phase, f1, d) <= PhaseDuration(phase, f2, d)
  {
  }

  /** While the base length lies within [15, 60], harder goals never get a
      shorter phase: manageable <= moderate <= challenging. */
  lemma DifficultyOrdered(phase: Phase, focusTime: int)
    requires 15 <= PhaseBase(phase, focusTime) <= 60
    ensures PhaseDuration(phase, focusTime, Manageable) <= PhaseDuration(phase, focusTime, Moderate)
    ensures PhaseDuration(phase, focusTime, Moderate) <= PhaseDuration(phase, focusTime, Challenging)
  {
  }

  /** Once the focus time exceeds 45 minutes, the 60-minute cap makes a
      challenging deep phase shorter than a moderate one. */
  lemma DeepCapBites(focusTime: int)
    requires focusTime > 45
    ensures PhaseDuration(Deep, focusTime, Challenging) < PhaseDuration(Deep, focusTime, Moderate)
  {
  }

  /** The 60-minute cap applies to challenging goals only: with a 50-minute
      focus time adjusted up to 60, a moderate deep phase runs 75 minutes and
      a challenging one 60. */
  lemma CapOnlyForChallenging()
    ensures PhaseDuration(Deep, 60, Moderate) == 75
    ensures PhaseDuration(Deep, 60, Challenging) == 60
    ensures AdjustTimings(DefaultTiming(Assignment), [5, 5, 5]).focusTime == 60
  {
    assert Recent([5, 5, 5]) == [5, 5, 5];
    assert [5, 5, 5][..2] == [5, 5] && [5, 5][..1] == [5] && [5][..0] == [];
    assert Sum([5, 5, 5]) == 15;
  }
}
